=== FILE: README.md ===
# ADCP projector client, modelled in Dafny

This project models the ADCP client class of a Homebridge plugin that drives a
Sony projector over its line-oriented text protocol (ADCP) on TCP. The client
keeps one socket, a FIFO queue of pending commands and a receive buffer. It
matches each complete reply frame to the oldest pending command, because the
protocol carries no correlation identifier. When login is enabled it also runs
a username/password handshake.

Layout, one module per concern of `adcp.js`:

- `basics.dfy` (`Basics`): `Option` and `Result`.
- `js_string.dfy` (`JsString`): the JavaScript string built-ins the client uses.
  These are `endsWith`, `includes` (proved equal to "occurs at some index"),
  `trim` (the ECMAScript white-space and line-terminator set) and `toLowerCase`
  (ASCII letters only).
- `framer.dfy` (`Framer`): `handleData` as a pure function `Feed` of the buffer,
  the queue and one chunk. `FeedAll` runs it over a sequence of chunks, and a
  lemma proves FIFO matching over it.
- `login.dfy` (`Login`): the per-chunk, priority-ordered marker test of the
  login listener.
- `commands.dfy` (`Commands`): the command text of every facade method. A
  request datatype and its formatter are paired with a parser that reads each
  line back, and the module also holds the power-status reading and the
  `setIPv4Address` sequence.
- `adcp_client.dfy` (`Adcp`): the client object as a class. Its fields are the
  object's own: `client`, `isAuthenticated`, `isConnecting`, `commandQueue`
  and `responseBuffer`. Two more fields record which listeners are registered
  and number the queued entries. The calls and socket events are methods, each
  proved against `Feed`, `Classify` or an explicit description of the new state.
  Socket writes go to the ghost log `written`, and resolved commands to the
  ghost log `resolutions`.
- `scenarios.dfy` (`Scenarios`): runs of the client built from those methods.
  They show what callers and the device observe.

The model follows the code. Each of these consequences is proved for the run
of calls and events its scenario describes:

- `connect()` stores the new socket in `client` before it has connected. A
  second `connect()` made before the socket has connected therefore returns at
  once instead of waiting. Its command is then written before the username
  line, with no login done. A second `connect()` made during the login also
  returns at once. Its command is written after the username line, and the
  login's success banner, once terminated, is cut as that command's reply.
- The socket's error handler calls `disconnect()` but leaves `isConnecting` set.
  After an error before the connect callback, or during the login, only the
  connect callback or the settling login could clear the flag, and neither is
  left to happen. So after the socket's `close`, every `connect()` waits.
- `disconnect()` neither rejects the pending commands nor clears the buffer.
  After a reconnect, the first reply is prefixed with stale unterminated text
  and resolves a command sent on the old connection.
- Within one chunk, the prompt `"> "` outranks `Login incorrect`. A marker split
  across two chunks is never seen.
- Two replies that arrive in one chunk form one frame. It resolves only the
  oldest command, with both lines, and the next command waits for a later
  reply.
- The power state is "on" whenever the letters `on` occur anywhere in the
  reply, in any case.

## Model

| member | source | states |
|---|---|---|
| `JsString.Includes` | adcp.js:108-115 | `s.includes(t)` is true exactly when `t` occurs in `s` at some index |
| `JsString.Trim` | adcp.js:92 | the trimmed frame has no white space at either end |
| `JsString.TrimMargins` | adcp.js:92 | the trimmed frame is the input with an all-white-space prefix and an all-white-space suffix cut off |
| `JsString.TrimWrapped` | adcp.js:92 | trimming a tight string wrapped in white space gives back exactly that string |
| `JsString.TrimTight` | adcp.js:92 | a string without white space at its ends is its own trim |
| `Framer.Feed` | adcp.js:87-100 | the chunk is appended, and an unterminated buffer is kept whole with the queue unchanged and nothing emitted. A buffer ending in CRLF or `"> "` is emitted trimmed and the buffer becomes empty. The frame resolves exactly the queue head, which leaves the queue, or is dropped when the queue is empty. The resolved entry followed by the new queue is the old queue |
| `Framer.FeedAll` | adcp.js:87-100 | the safety half of a run of chunks: the resolved commands are a prefix of the queue in queue order, and the rest stay queued in order. Every frame is trimmed. The k-th resolution carries the k-th frame, and a frame is left unresolved only when no command is pending |
| `Framer.QuietRun` | adcp.js:87-100 | the liveness half: a run of chunks that emits no frame has appended every chunk, in order, to the buffer and left the queue untouched, so nothing received is lost |
| `Framer.RepliesResolveInOrder` | adcp.js:95-98 | with an empty buffer and one terminated reply per chunk, the k-th reply, trimmed, resolves the k-th queued command, and exactly that many commands leave the queue |
| `Framer.ReplyLineFramed` | adcp.js:91-93 | received on an empty buffer, a tight reply line ending in CRLF is framed as exactly that line; ending in the prompt, as the line followed by `>`, so a bare prompt is framed as `>` |
| `Framer.TwoLinesOneFrame` | adcp.js:88-98 | two tight reply lines arriving in one chunk on an empty buffer form one frame, which keeps the CRLF between them and resolves only the queue head; the next command stays queued |
| `Login.Classify` | adcp.js:105-123 | `Password:` gives "send password" whatever else the chunk holds. Otherwise `Login successful` or `"> "` gives success, otherwise `Login incorrect` gives failure, otherwise the handshake keeps waiting. Each outcome is stated as an if-and-only-if over marker occurrences |
| `Login.PromptOutranksFailure` | adcp.js:111-115 | a chunk holding both `Login incorrect` and the prompt is read as a successful login |
| `Login.SplitMarkerMissed` | adcp.js:105-110 | a password request split over two chunks is never recognised, though the whole request is |
| `Commands.Format` | adcp.js:161-256 | each facade command line is as long as its verb, one separator and its argument, so the space is always there, even for an empty argument, and the line splits back into exactly that verb and argument |
| `Commands.Parse` | adcp.js:161-256 | the device-side reading of a command line, a reference inverse of the builders (the client itself parses no command lines): a line is read as a facade call only when its verb and argument are that call's |
| `Commands.ParseFormat` | adcp.js:161-256 | every facade call's command line reads back as that call, including `power on`/`off`, `muting`, `overscan` and `freeze` with their on/off word |
| `JsString.Lower` | adcp.js:165 | the model's `toLowerCase`, on ASCII letters only: no capital `A`-`Z` remains, every other character is kept where it was, and each capital becomes the character 32 code points higher, its small letter |
| `JsString.LowerTwice` | adcp.js:165 | lower-casing twice gives the same text as lower-casing once |
| `Commands.PowerStateOf` | adcp.js:161-166 | `getPowerState` reads "on" exactly when some index holds `o`/`O` followed by `n`/`N` |
| `Commands.PowerStatusReadings` | adcp.js:165 | `power_status on` reads as on and `standby` as off, and `CONNECTION LOST` also reads as on |
| `Commands.SetIPv4AddressLines` | adcp.js:185-190 | `setIPv4Address` issues exactly four lines: the address, the subnet mask, the gateway and then `ipv4_network_setting apply`. Each is exactly the line its facade builder makes and reads back as that call |
| `Adcp.Client.constructor` | adcp.js:6-19 | a new client has no socket, is neither authenticated nor connecting, and has an empty queue and buffer |
| `Adcp.Client.Connect` | adcp.js:22-43 | with a live socket, it returns at once and changes nothing. Otherwise, with an attempt marked, it waits and changes nothing. Otherwise it marks an attempt and holds a new, unconnected socket, with the queue, the buffer and the authenticated flag untouched |
| `Adcp.Client.OnConnect` | adcp.js:45-53 | with login, it registers the login listener and writes exactly the username line, and the attempt stays pending. Without login, it ends the attempt and resolves it |
| `Adcp.Client.Disconnect` | adcp.js:78-84 | leaves no socket and clears the authenticated flag. The queue, the buffer and the attempt flag are left as they were. The result does not depend on the old socket or flag, so a second call changes nothing |
| `Adcp.Client.Shutdown` | adcp.js:259-261 | the same new state as `disconnect()` |
| `Adcp.Client.OnSocketError` | adcp.js:64-67 | the same new state as `disconnect()`. In particular the attempt flag stays set |
| `Adcp.Client.OnSocketClose` | adcp.js:69-73 | forgets the socket and clears the authenticated flag, with nothing else changed |
| `Adcp.Client.SocketDestroyed` | adcp.js:135 | a socket that tore itself down stays in `client` but no longer counts as live |
| `Adcp.Client.HandleData` | adcp.js:87-100 | the new buffer, queue, emitted frame and resolved command are exactly those of `Feed`. The resolution log grows by the resolved command only, and the queued entries stay in increasing order |
| `Adcp.Client.AuthOnData` | adcp.js:105-123 | acts on `Classify` of the chunk. "Send password" writes exactly the password line. Success unregisters the listener, sets the authenticated flag and ends the attempt. Failure unregisters the listener, disconnects and ends the attempt without authentication. Any other chunk changes nothing. The queue and buffer are never touched |
| `Adcp.Client.OnData` | adcp.js:62 | a chunk goes through the framer first, as `Feed` says, and then through the login listener while that is registered, with the whole new state of each `AuthOnData` outcome. Otherwise only the framer acts |
| `Adcp.Client.SendCommand` | adcp.js:133-145 | without a live socket, it is refused with `NotConnected` and changes nothing. Otherwise exactly one fresh entry joins the queue tail and exactly the line `command + CRLF` is written, with nothing else changed |
| `Scenarios.CommandsResolveInOrder` | adcp.js:95-143 | N commands sent and then N terminated replies: the k-th reply, trimmed, resolves the k-th command, and the entries are distinct |
| `Scenarios.ConnectDuringAttempt` | adcp.js:22-45 | a second `connect()` made before the socket has connected returns at once, and its command is queued unauthenticated and written before the username line |
| `Scenarios.ConnectDuringLogin` | adcp.js:22-145 | a second `connect()` made during the login returns at once. Its command is written after the username line, and the terminated success banner resolves that command with the banner, trimmed, while the login still succeeds |
| `Scenarios.ErrorDuringAttempt` | adcp.js:27-73 | a socket error before the connect callback, or during login, followed by the socket's `close`, leaves every later `connect()` waiting, and commands are refused. Without login, an error and close after the callback allow a fresh attempt, whose live socket then answers the next `connect()` at once |
| `Scenarios.LoginAccepted` | adcp.js:103-129 | the wire carries the username line then the password line, and the attempt resolves authenticated and no longer connecting. Login chunks resolve no command |
| `Scenarios.LoginRejected` | adcp.js:54-59 | a `Login incorrect` chunk rejects the attempt and leaves the client unauthenticated, and the next `connect()` starts a fresh attempt |
| `Scenarios.PowerRoundTrip` | adcp.js:161-172 | the device receives `power on` and then `power_status ?`, each with CRLF. The acknowledgement, trimmed, resolves the power command, and the reply `power_status on` resolves the status query and reads as on |
| `Scenarios.TwoRepliesOneChunk` | adcp.js:88-98 | with two commands pending, two reply lines in one chunk resolve the first command with both lines joined by CRLF, and the second command stays pending |
| `Scenarios.ReconnectMatchesStaleCommand` | adcp.js:78-98 | disconnecting twice keeps the pending command. After a reconnect, the first reply, prefixed with the stale partial text, resolves the old command, and the new one stays pending |

## Left out

- Socket I/O is not modelled. That covers creating the `net.Socket`, its `connect`, `write` and `destroy` calls, registering listeners, and the host and port. Writes appear only as lines appended to the ghost log `written`. Socket events are methods the caller invokes in the order they happen.
- The 50 ms polling loop on `isConnecting` is not modelled. A waiting `connect()` is the `WaitForAttempt` outcome. It ends, without any outcome of its own, once the flag is cleared.
- Promise scheduling is not modelled. `executeCommand` chains `connect()` and `sendCommand()` with `await`, and the scenarios compose those steps explicitly. The continuation after `await this.authenticate()` (setting `isAuthenticated`, clearing `isConnecting`, or disconnecting on rejection) is applied together with the chunk that settles the login.
- Each queued `{ resolve, reject }` pair is an entry number. Resolving one appends to the ghost log `resolutions`, and a refused `sendCommand` is an `Err` result.
- The model has a single socket. If a destroyed socket's `close` event arrived after a new socket had been stored, it would clear `client` for the new one. Events are not tied to the socket that raises them, so that race, and the later events of the new socket it orphans, are not captured. The scenarios deliver each socket's `close` right after its `error`.
- The code has no command or connection timeouts and no queue flush on connection loss, so the model has none either.
- `this.log` calls are omitted.
- `data.toString()` is not modelled: chunks are already-decoded strings. A multi-byte character split between chunks is outside the model. Characters are code points, not UTF-16 code units.
- `Commands.SetIPv4AddressLines`: gives the four lines `setIPv4Address` issues when every step succeeds. Each line is sent through an awaited `executeCommand`, so a refused step (no socket) ends the call, and the later lines, including `ipv4_network_setting apply`, are then not sent. That early exit belongs to promise scheduling, which is not modelled.
- `JsString.Lower`: models `toLowerCase` on ASCII letters only. JavaScript also lower-cases other scripts, and some characters change length (U+0130 becomes two characters), which the model does not capture.
- `Commands.PowerStateOf`: `toLowerCase` is modelled for ASCII letters only. The reading is stated for `o`/`O` and `n`/`N`.
- Facade arguments are the text the template literal produces. JavaScript's conversion of numbers to text, and the truthiness of the `state` argument (modelled as a boolean), are not modelled.
- accessory.js (the Homebridge switch adapter), snmp.js (the SNMP poller over an external library) and index.js (plugin registration) are not part of this model.

=== FILE: adcp_client.dfy ===
/** The ADCP client object: its connection flags, its pending-command queue
    and receive buffer, and the socket events and calls that update them.
    Writes to the socket are recorded, in order, in the ghost log `written`;
    the commands resolved by the framer in the ghost log `resolutions`. */
module Adcp {
  import opened Basics
  import opened JsString
  import opened Framer
  import opened Login
  import opened Commands

  /** `this.client`: null, or a socket that has or has not finished
      connecting and may have been destroyed. */
  datatype ClientRef = Null | Socket(established: bool, destroyed: bool)

  /** How a call of `connect()` proceeds. */
  datatype ConnectStart =
    | AlreadyConnected   // a live socket exists: return at once
    | WaitForAttempt     // an attempt is marked in progress: poll until it ends
    | Started            // a new socket was created and is connecting

  /** The state of the promise returned by a `connect()` that started an attempt. */
  datatype Progress = Pending | Resolved | Rejected

  datatype SendError = NotConnected

  /** Entry numbers in strictly increasing order, all below `bound`. */
  ghost predicate Ascending(queue: seq<nat>, bound: nat)
  {
    (forall k :: 0 <= k < |queue| ==> queue[k] < bound)
    && (forall j, k :: 0 <= j < k < |queue| ==> queue[j] < queue[k])
  }

  lemma AscendingTail(queue: seq<nat>, bound: nat)
    requires Ascending(queue, bound) && queue != []
    ensures Ascending(queue[1..], bound)
  {
    forall j, k | 0 <= j < k < |queue| - 1
      ensures queue[1..][j] < queue[1..][k]
    {
      assert queue[1..][j] == queue[j + 1] && queue[1..][k] == queue[k + 1];
    }
  }

  class Client {
    const username: string
    const password: string
    const useAuth: bool

    var client: ClientRef
    var isAuthenticated: bool
    var isConnecting: bool
    var commandQueue: seq<nat>
    var responseBuffer: string
    /** The `authenticate` data listener is registered on the current socket. */
    var authListening: bool
    /** The number the next queued command receives. */
    var nextEntry: nat

    ghost var written: seq<string>
    ghost var resolutions: seq<Resolution>

    /** The socket test of `connect`, `disconnect` and `sendCommand`. */
    predicate Live()
      reads this
    {
      client.Socket? && !client.destroyed
    }

    /** Queued entries are distinct, in the order queued, and older than
        `nextEntry`; the login listener is registered only during an attempt
        of a client that logs in; a socket still connecting belongs to an
        attempt in progress. */
    ghost predicate Valid()
      reads this
    {
      Ascending(commandQueue, nextEntry)
      && (authListening ==> useAuth && isConnecting)
      && (isAuthenticated ==> useAuth)
      && (client.Socket? && !client.established ==> isConnecting)
    }

    ghost function ChannelState(): Channel
      reads this
    {
      Channel(responseBuffer, commandQueue)
    }

    constructor (username: string, password: string, useAuth: bool)
      ensures Valid()
      ensures this.username == username && this.password == password && this.useAuth == useAuth
      ensures client == Null && !isAuthenticated && !isConnecting && !authListening
      ensures commandQueue == [] && responseBuffer == [] && nextEntry == 0
      ensures written == [] && resolutions == []
    {
      this.username := username;
      this.password := password;
      this.useAuth := useAuth;
      client := Null;
      isAuthenticated := false;
      commandQueue := [];
      responseBuffer := [];
      isConnecting := false;
      authListening := false;
      nextEntry := 0;
      written := [];
      resolutions := [];
    }

    /** The synchronous part of `connect()`: return when a live socket
        exists, wait when an attempt is marked in progress, otherwise mark
        one and create a new socket, with only the framer listening to it. */
    method Connect() returns (start: ConnectStart)
      requires Valid()
      modifies this
      ensures Valid()
      ensures old(Live()) ==> start == AlreadyConnected && unchanged(this)
      ensures !old(Live()) && old(isConnecting) ==> start == WaitForAttempt && unchanged(this)
      ensures !old(Live()) && !old(isConnecting) ==>
        start == Started && client == Socket(false, false) && isConnecting && !authListening
        && isAuthenticated == old(isAuthenticated) && ChannelState() == old(ChannelState())
        && nextEntry == old(nextEntry) && written == old(written) && resolutions == old(resolutions)
    {
      if Live() {
        return AlreadyConnected;
      }
      if isConnecting {
        return WaitForAttempt;
      }
      isConnecting := true;
      client := Socket(false, false);
      authListening := false;
      start := Started;
    }

    /** The socket's connect callback: log in when configured to (register
        the login listener and write the username line at once), otherwise
        end the attempt and resolve `connect()`. */
    method OnConnect() returns (progress: Progress)
      requires Valid()
      requires client == Socket(false, false)
      modifies this
      ensures Valid()
      ensures client == Socket(true, false)
      ensures useAuth ==>
        progress == Pending && authListening && isConnecting
        && written == old(written) + [username + CRLF]
      ensures !useAuth ==>
        progress == Resolved && !isConnecting
        && authListening == old(authListening) && written == old(written)
      ensures isAuthenticated == old(isAuthenticated) && ChannelState() == old(ChannelState())
      ensures nextEntry == old(nextEntry) && resolutions == old(resolutions)
    {
      client := client.(established := true);
      if useAuth {
        authListening := true;
        written := written + [username + CRLF];
        progress := Pending;
      } else {
        isConnecting := false;
        progress := Resolved;
      }
    }

    /** `disconnect()`: destroy a live socket, forget it, and clear the
        authenticated flag. The attempt flag, the queue, the buffer and the
        listener registration are left as they are, so calling it again
        changes nothing. */
    method Disconnect()
      requires Valid()
      modifies this
      ensures Valid()
      ensures client == Null && !isAuthenticated
      ensures isConnecting == old(isConnecting) && authListening == old(authListening)
      ensures ChannelState() == old(ChannelState()) && nextEntry == old(nextEntry)
      ensures written == old(written) && resolutions == old(resolutions)
    {
      if Live() {
        client := client.(destroyed := true);
      }
      client := Null;
      isAuthenticated := false;
    }

    /** `shutdown()`: the same as `disconnect()`. */
    method Shutdown()
      requires Valid()
      modifies this
      ensures Valid()
      ensures client == Null && !isAuthenticated
      ensures isConnecting == old(isConnecting) && authListening == old(authListening)
      ensures ChannelState() == old(ChannelState()) && nextEntry == old(nextEntry)
      ensures written == old(written) && resolutions == old(resolutions)
    {
      Disconnect();
    }

    /** The socket's error handler: `disconnect()`. */
    method OnSocketError()
      requires Valid()
      modifies this
      ensures Valid()
      ensures client == Null && !isAuthenticated
      ensures isConnecting == old(isConnecting) && authListening == old(authListening)
      ensures ChannelState() == old(ChannelState()) && nextEntry == old(nextEntry)
      ensures written == old(written) && resolutions == old(resolutions)
    {
      Disconnect();
    }

    /** The socket's close handler: clear the authenticated flag and forget
        the socket, touching nothing else. */
    method OnSocketClose()
      requires Valid()
      modifies this
      ensures Valid()
      ensures client == Null && !isAuthenticated
      ensures isConnecting == old(isConnecting) && authListening == old(authListening)
      ensures ChannelState() == old(ChannelState()) && nextEntry == old(nextEntry)
      ensures written == old(written) && resolutions == old(resolutions)
    {
      isAuthenticated := false;
      client := Null;
    }

    /** The socket tore itself down (the peer closed it, or it failed) and
        its close event has not yet run: `client` still refers to it, but
        it no longer counts as live. */
    method SocketDestroyed()
      requires Valid()
      requires client.Socket?
      modifies this`client
      ensures Valid()
      ensures client == old(client).(destroyed := true) && !Live()
    {
      client := client.(destroyed := true);
    }

    /** `handleData(chunk)`: the framer and FIFO matcher. */
    method HandleData(chunk: string) returns (frame: Option<string>, resolved: Option<Resolution>)
      requires Ascending(commandQueue, nextEntry)
      modifies this`responseBuffer, this`commandQueue, this`resolutions
      ensures Ascending(commandQueue, nextEntry)
      ensures ChannelState() == Feed(old(ChannelState()), chunk).next
      ensures frame == Feed(old(ChannelState()), chunk).frame
      ensures resolved == Feed(old(ChannelState()), chunk).resolved
      ensures resolutions == old(resolutions) + AsSeq(resolved)
    {
      ghost var step := Feed(ChannelState(), chunk);
      responseBuffer := responseBuffer + chunk;
      frame, resolved := None, None;
      if EndsWith(responseBuffer, CRLF) || EndsWith(responseBuffer, Prompt) {
        var response := Trim(responseBuffer);
        responseBuffer := [];
        frame := Some(response);
        if |commandQueue| > 0 {
          resolved := Some(Resolution(commandQueue[0], response));
          AscendingTail(commandQueue, nextEntry);
          commandQueue := commandQueue[1..];
          resolutions := resolutions + [resolved.value];
        }
        assert step.frame == frame && step.resolved == resolved;
      } else {
        assert step.frame == None && step.resolved == None;
      }
      assert ChannelState() == step.next;
    }

    /** The login listener of `authenticate()` on one chunk, with what
        `connect()` does once the handshake settles: on success the client
        is marked authenticated and the attempt ends; on failure it
        disconnects and the attempt ends. */
    method AuthOnData(chunk: string) returns (progress: Progress)
      requires Valid()
      requires authListening && client == Socket(true, false)
      modifies this
      ensures Valid()
      ensures Classify(chunk) == SendPassword ==>
        progress == Pending && written == old(written) + [password + CRLF]
        && authListening && client == old(client)
        && isConnecting == old(isConnecting) && isAuthenticated == old(isAuthenticated)
      ensures Classify(chunk) == Succeed ==>
        progress == Resolved && written == old(written)
        && !authListening && client == old(client) && !isConnecting && isAuthenticated
      ensures Classify(chunk) == Fail ==>
        progress == Rejected && written == old(written)
        && !authListening && client == Null && !isConnecting && !isAuthenticated
      ensures Classify(chunk) == KeepWaiting ==> progress == Pending && unchanged(this)
      ensures ChannelState() == old(ChannelState()) && nextEntry == old(nextEntry)
      ensures resolutions == old(resolutions)
    {
      match Classify(chunk)
      case SendPassword =>
        written := written + [password + CRLF];
        progress := Pending;
      case Succeed =>
        authListening := false;
        isAuthenticated := true;
        isConnecting := false;
        progress := Resolved;
      case Fail =>
        authListening := false;
        Disconnect();
        isConnecting := false;
        progress := Rejected;
      case KeepWaiting =>
        progress := Pending;
    }

    /** A chunk arriving on the socket reaches its listeners in the order
        they were registered: the framer first, then the login listener
        while it is registered. */
    method OnData(chunk: string) returns (resolved: Option<Resolution>, progress: Progress)
      requires Valid()
      requires client == Socket(true, false)
      modifies this
      ensures Valid()
      ensures ChannelState() == Feed(old(ChannelState()), chunk).next
      ensures resolved == Feed(old(ChannelState()), chunk).resolved
      ensures resolutions == old(resolutions) + AsSeq(resolved)
      ensures nextEntry == old(nextEntry)
      ensures !old(authListening) ==>
        progress == Pending && client == old(client) && !authListening
        && isConnecting == old(isConnecting) && isAuthenticated == old(isAuthenticated)
        && written == old(written)
      ensures old(authListening) && Classify(chunk) == SendPassword ==>
        progress == Pending && written == old(written) + [password + CRLF]
        && authListening && client == old(client) && isConnecting == old(isConnecting)
        && isAuthenticated == old(isAuthenticated)
      ensures old(authListening) && Classify(chunk) == Succeed ==>
        progress == Resolved && written == old(written)
        && !authListening && client == old(client) && !isConnecting && isAuthenticated
      ensures old(authListening) && Classify(chunk) == Fail ==>
        progress == Rejected && written == old(written)
        && !authListening && client == Null && !isConnecting && !isAuthenticated
      ensures old(authListening) && Classify(chunk) == KeepWaiting ==>
        progress == Pending && written == old(written) && authListening
        && client == old(client) && isConnecting == old(isConnecting)
        && isAuthenticated == old(isAuthenticated)
    {
      var frame;
      frame, resolved := HandleData(chunk);
      progress := Pending;
      if authListening {
        progress := AuthOnData(chunk);
      }
    }

    /** `sendCommand(command)`: refuse without a live socket; otherwise queue
        a new pending entry at the tail and write the command line. */
    method SendCommand(command: string) returns (r: Result<nat, SendError>)
      requires Valid()
      modifies this
      ensures Valid()
      ensures !old(Live()) ==> r == Err(NotConnected) && unchanged(this)
      ensures old(Live()) ==>
        r == Ok(old(nextEntry)) && commandQueue == old(commandQueue) + [old(nextEntry)]
        && nextEntry == old(nextEntry) + 1 && written == old(written) + [command + CRLF]
        && responseBuffer == old(responseBuffer) && client == old(client)
        && isConnecting == old(isConnecting) && isAuthenticated == old(isAuthenticated)
        && authListening == old(authListening) && resolutions == old(resolutions)
    {
      if !Live() {
        return Err(NotConnected);
      }
      r := Ok(nextEntry);
      commandQueue := commandQueue + [nextEntry];
      nextEntry := nextEntry + 1;
      written := written + [command + CRLF];
    }
  }
}

=== FILE: basics.dfy ===
/** Optional values and results with an error, used for a missing frame,
    an empty queue and a refused command. */
module Basics {

  datatype Option<+T> = None | Some(value: T)

  datatype Result<+T, +E> = Ok(value: T) | Err(error: E)

  /** The zero- or one-element sequence holding the value of `o`. */
  function AsSeq<T>(o: Option<T>): seq<T>
  {
    if o.Some? then [o.value] else []
  }
}

=== FILE: commands.dfy ===
/** The device command facade: the command text each facade method sends,
    the reading of the power-status reply, and the order of the network
    setting commands. */
module Commands {
  import opened Basics
  import opened JsString

  /** One facade call and its argument. Arguments other than on/off are the
      text the template literal inserts into the command. */
  datatype Request =
    | PowerStatus                    // getPowerState
    | Power(on: bool)                // setPowerState
    | NetworkSetting(apply: bool)    // startNetworkSettings / applyNetworkSettings
    | IPv4Address(address: string)
    | SubnetMask(mask: string)
    | DefaultGateway(gateway: string)
    | Input(input: string)           // setInput
    | Muting(on: bool)               // muteAudio
    | Volume(level: string)
    | Brightness(level: string)
    | Contrast(level: string)
    | PictureMode(mode: string)
    | Aspect(ratio: string)          // setAspectRatio
    | ScreenPosition(position: string)
    | ScreenSize(size: string)
    | Overscan(on: bool)
    | Freeze(on: bool)
    | ImageSplit(mode: string)

  function OnOff(on: bool): string
  {
    if on then "on" else "off"
  }

  function ParseOnOff(word: string): (on: Option<bool>)
    ensures on.Some? <==> word == OnOff(true) || word == OnOff(false)
    ensures on.Some? ==> OnOff(on.value) == word
  {
    if word == "on" then Some(true) else if word == "off" then Some(false) else None
  }

  /** The first word of the command line. */
  function Verb(r: Request): string
  {
    match r
    case PowerStatus => "power_status"
    case Power(_) => "power"
    case NetworkSetting(_) => "ipv4_network_setting"
    case IPv4Address(_) => "ipv4_ip_address"
    case SubnetMask(_) => "ipv4_sub_net_mask"
    case DefaultGateway(_) => "ipv4_default_gateway"
    case Input(_) => "input"
    case Muting(_) => "muting"
    case Volume(_) => "volume"
    case Brightness(_) => "brightness"
    case Contrast(_) => "contrast"
    case PictureMode(_) => "picture_mode"
    case Aspect(_) => "aspect"
    case ScreenPosition(_) => "v_center"
    case ScreenSize(_) => "v_size"
    case Overscan(_) => "overscan"
    case Freeze(_) => "freeze"
    case ImageSplit(_) => "image_split"
  }

  /** The rest of the command line after the first space. */
  function Argument(r: Request): string
  {
    match r
    case PowerStatus => "?"
    case Power(on) => OnOff(on)
    case NetworkSetting(apply) => if apply then "apply" else "start"
    case IPv4Address(a) => a
    case SubnetMask(m) => m
    case DefaultGateway(g) => g
    case Input(i) => i
    case Muting(on) => OnOff(on)
    case Volume(l) => l
    case Brightness(l) => l
    case Contrast(l) => l
    case PictureMode(m) => m
    case Aspect(a) => a
    case ScreenPosition(p) => p
    case ScreenSize(s) => s
    case Overscan(on) => OnOff(on)
    case Freeze(on) => OnOff(on)
    case ImageSplit(m) => m
  }

  /** Splits a command line at its first space into verb and argument (the
      whole line is the verb when there is no space). */
  function SplitCommand(line: string): (parts: (string, string))
    ensures ' ' !in parts.0
    decreases |line|
  {
    if line == [] then ([], [])
    else if line[0] == ' ' then ([], line[1..])
    else
      var rest := SplitCommand(line[1..]);
      ([line[0]] + rest.0, rest.1)
  }

  lemma {:induction false} SplitJoin(verb: string, arg: string)
    requires ' ' !in verb
    ensures SplitCommand(verb + " " + arg) == (verb, arg)
    decreases |verb|
  {
    if verb == [] {
      assert verb + " " + arg == [' '] + arg;
    } else {
      assert (verb + " " + arg)[1..] == verb[1..] + " " + arg;
      SplitJoin(verb[1..], arg);
      assert [verb[0]] + verb[1..] == verb;
    }
  }

  /** The command text a facade call writes (without its line terminator):
      its verb, a space, its argument. */
  function Format(r: Request): (line: string)
    ensures SplitCommand(line) == (Verb(r), Argument(r))
    ensures |line| == |Verb(r)| + 1 + |Argument(r)|
  {
    SplitJoin(Verb(r), Argument(r));
    Verb(r) + " " + Argument(r)
  }

  /** Reads a command line back into the facade call that writes it: the
      device's view of the command, a reference inverse of `Format`. */
  function Parse(line: string): (r: Option<Request>)
    ensures r.Some? ==> SplitCommand(line) == (Verb(r.value), Argument(r.value))
  {
    var (verb, arg) := SplitCommand(line);
    match verb
    case "power_status" => if arg == "?" then Some(PowerStatus) else None
    case "power" => OnOffRequest(arg, b => Power(b))
    case "ipv4_network_setting" =>
      if arg == "apply" then Some(NetworkSetting(true))
      else if arg == "start" then Some(NetworkSetting(false))
      else None
    case "ipv4_ip_address" => Some(IPv4Address(arg))
    case "ipv4_sub_net_mask" => Some(SubnetMask(arg))
    case "ipv4_default_gateway" => Some(DefaultGateway(arg))
    case "input" => Some(Input(arg))
    case "muting" => OnOffRequest(arg, b => Muting(b))
    case "volume" => Some(Volume(arg))
    case "brightness" => Some(Brightness(arg))
    case "contrast" => Some(Contrast(arg))
    case "picture_mode" => Some(PictureMode(arg))
    case "aspect" => Some(Aspect(arg))
    case "v_center" => Some(ScreenPosition(arg))
    case "v_size" => Some(ScreenSize(arg))
    case "overscan" => OnOffRequest(arg, b => Overscan(b))
    case "freeze" => OnOffRequest(arg, b => Freeze(b))
    case "image_split" => Some(ImageSplit(arg))
    case _ => None
  }

  function OnOffRequest(word: string, make: bool -> Request): Option<Request>
  {
    match ParseOnOff(word)
    case Some(on) => Some(make(on))
    case None => None
  }

  /** Every facade call's command text is read back as that call. */
  lemma ParseFormat(r: Request)
    ensures Parse(Format(r)) == Some(r)
  {
  }

  /** `getPowerState`'s reading of the reply: powered on when "on" occurs
      in the reply, letters compared without regard to case. */
  function PowerStateOf(response: string): (on: bool)
    ensures on <==> exists i :: OnAt(response, i)
  {
    OnOccursInLower(response);
    Includes(Lower(response), "on")
  }

  lemma OnOccursInLower(s: string)
    ensures Occurs(Lower(s), "on") <==> exists i :: OnAt(s, i)
  {
    var lower := Lower(s);
    if Occurs(lower, "on") {
      var i :| OccursAt(lower, "on", i);
      assert lower[i..i + 2][0] == lower[i] && lower[i..i + 2][1] == lower[i + 1];
      assert OnAt(s, i);
    }
    if exists i :: OnAt(s, i) {
      var i :| OnAt(s, i);
      assert lower[i..i + 2] == [lower[i], lower[i + 1]];
      assert OccursAt(lower, "on", i);
    }
  }

  /** Letters `o` and `n`, in either case, at `i` and `i + 1`. */
  ghost predicate OnAt(s: string, i: int)
  {
    0 <= i && i + 1 < |s| && (s[i] == 'o' || s[i] == 'O') && (s[i + 1] == 'n' || s[i + 1] == 'N')
  }

  /** Readings of status replies: "on" anywhere, in any case, reads as
      powered on, whatever word it is part of. */
  lemma PowerStatusReadings()
    ensures Tight("power_status on") && PowerStateOf("power_status on")
    ensures !PowerStateOf("standby")
    ensures PowerStateOf("CONNECTION LOST")
  {
    var s := "power_status on";
    assert s[0] == 'p' && s[|s| - 1] == 'n';
    assert OnAt(s, 13);
    assert OnAt("CONNECTION LOST", 1);
  }

  /** `line` is exactly the command line of call `r`, and is read back as `r`. */
  predicate LineOf(line: string, r: Request)
  {
    Parse(line) == Some(r) && Format(r) == line
  }

  lemma FormatIsLineOf(r: Request)
    ensures LineOf(Format(r), r)
  {
    ParseFormat(r);
  }

  /** The lines `setIPv4Address` issues, one after the other: the address,
      the subnet mask, the gateway, then the command that applies them. */
  function SetIPv4AddressLines(address: string, mask: string, gateway: string): (lines: seq<string>)
    ensures |lines| == 4
    ensures LineOf(lines[0], IPv4Address(address))
    ensures LineOf(lines[1], SubnetMask(mask))
    ensures LineOf(lines[2], DefaultGateway(gateway))
    ensures LineOf(lines[3], NetworkSetting(true))
  {
    FormatIsLineOf(IPv4Address(address));
    FormatIsLineOf(SubnetMask(mask));
    FormatIsLineOf(DefaultGateway(gateway));
    FormatIsLineOf(NetworkSetting(true));
    [Format(IPv4Address(address)), Format(SubnetMask(mask)),
     Format(DefaultGateway(gateway)), Format(NetworkSetting(true))]
  }
}

=== FILE: framer.dfy ===
/** The response framer and FIFO matcher of the ADCP client (`handleData`),
    as a function of the receive buffer, the queue of pending commands and
    one received chunk. Pending commands are named by entry numbers: the
    client gives each queued `{ resolve, reject }` pair a fresh one. */
module Framer {
  import opened Basics
  import opened JsString

  const CRLF: string := "\r\n"

  /** The interactive prompt the device ends some replies with. */
  const Prompt: string := "> "

  /** A buffer holds a complete frame when it ends with a line terminator
      or with the prompt. */
  predicate IsTerminated(buffer: string)
  {
    EndsWith(buffer, CRLF) || EndsWith(buffer, Prompt)
  }

  /** `responseBuffer` and `commandQueue`. */
  datatype Channel = Channel(buffer: string, queue: seq<nat>)

  /** Pending command `entry` was resolved with `response`. */
  datatype Resolution = Resolution(entry: nat, response: string)

  /** The outcome of one chunk: the new channel, the frame cut from the
      buffer if one was complete, and the command it resolved if any. */
  datatype Step = Step(next: Channel, frame: Option<string>, resolved: Option<Resolution>)

  /** The entry numbers of a run of resolutions, in order. */
  function Entries(rs: seq<Resolution>): (entries: seq<nat>)
    ensures |entries| == |rs|
  {
    if rs == [] then [] else [rs[0].entry] + Entries(rs[1..])
  }

  lemma {:induction false} EntriesAppend(a: seq<Resolution>, b: seq<Resolution>)
    ensures Entries(a + b) == Entries(a) + Entries(b)
  {
    if a == [] {
      assert a + b == b;
    } else {
      assert (a + b)[1..] == a[1..] + b;
      EntriesAppend(a[1..], b);
    }
  }

  /** One resolution step followed by a run of them still splits the queue
      into the resolved entries and the pending ones. */
  lemma QueueSplit(queue: seq<nat>, first: Option<Resolution>, middle: seq<nat>, rest: Trace)
    requires Entries(AsSeq(first)) + middle == queue
    requires Entries(rest.resolutions) + rest.next.queue == middle
    ensures Entries(AsSeq(first) + rest.resolutions) + rest.next.queue == queue
  {
    var e := Entries(AsSeq(first));
    EntriesAppend(AsSeq(first), rest.resolutions);
    assert e + Entries(rest.resolutions) + rest.next.queue
        == e + (Entries(rest.resolutions) + rest.next.queue);
  }

  /** One step followed by a run of them is again a run: the resolved
      entries still split off the queue head, every frame is tight, each
      resolution carries the frame at its own position, and a frame goes
      unresolved only once the queue has run empty. */
  lemma {:induction false} StepThenRun(queue: seq<nat>, s: Step, rest: Trace)
    requires Entries(AsSeq(s.resolved)) + s.next.queue == queue
    requires s.resolved.Some? <==> s.frame.Some? && queue != []
    requires s.resolved.Some? ==> s.resolved.value.response == s.frame.value
    requires s.frame.Some? ==> Tight(s.frame.value)
    requires Entries(rest.resolutions) + rest.next.queue == s.next.queue
    requires |rest.resolutions| <= |rest.frames|
    requires forall k :: 0 <= k < |rest.frames| ==> Tight(rest.frames[k])
    requires forall k :: 0 <= k < |rest.resolutions| ==> rest.resolutions[k].response == rest.frames[k]
    requires |rest.resolutions| < |rest.frames| ==> rest.next.queue == []
    ensures Entries(AsSeq(s.resolved) + rest.resolutions) + rest.next.queue == queue
    ensures forall k :: 0 <= k < |AsSeq(s.frame) + rest.frames| ==> Tight((AsSeq(s.frame) + rest.frames)[k])
    ensures forall k :: 0 <= k < |AsSeq(s.resolved) + rest.resolutions| ==>
      (AsSeq(s.resolved) + rest.resolutions)[k].response == (AsSeq(s.frame) + rest.frames)[k]
    ensures |AsSeq(s.resolved) + rest.resolutions| < |AsSeq(s.frame) + rest.frames| ==> rest.next.queue == []
  {
    QueueSplit(queue, s.resolved, s.next.queue, rest);
    var resolutions := AsSeq(s.resolved) + rest.resolutions;
    var frames := AsSeq(s.frame) + rest.frames;
    if s.frame.Some? {
      forall k | 0 <= k < |frames| ensures Tight(frames[k]) {
        if k > 0 {
          assert frames[k] == rest.frames[k - 1];
        }
      }
    } else {
      assert frames == rest.frames;
    }
    if s.resolved.Some? {
      forall k | 0 <= k < |resolutions| ensures resolutions[k].response == frames[k] {
        if k > 0 {
          assert resolutions[k] == rest.resolutions[k - 1] && frames[k] == rest.frames[k - 1];
        }
      }
    } else if s.frame.Some? {
      assert s.next.queue == [] by { assert Entries([]) + s.next.queue == s.next.queue; }
      assert |Entries(rest.resolutions)| == 0;
    } else {
      assert resolutions == rest.resolutions;
    }
  }

  /** Receiving `chunk`: append it to the buffer; once the buffer is
      terminated, cut it as one trimmed frame, empty the buffer, and hand the
      frame to the oldest pending command, dropping it when none is pending. */
  function Feed(c: Channel, chunk: string): (s: Step)
    ensures s.frame.None? <==> !IsTerminated(c.buffer + chunk)
    ensures s.frame.None? ==> s.next == Channel(c.buffer + chunk, c.queue) && s.resolved.None?
    ensures s.frame.Some? ==> s.next.buffer == [] && s.frame.value == Trim(c.buffer + chunk)
    ensures Entries(AsSeq(s.resolved)) + s.next.queue == c.queue
    ensures s.resolved.Some? <==> s.frame.Some? && c.queue != []
    ensures s.resolved.Some? ==> s.resolved.value == Resolution(c.queue[0], s.frame.value)
  {
    var buffer := c.buffer + chunk;
    if !IsTerminated(buffer) then
      Step(Channel(buffer, c.queue), None, None)
    else
      var response := Trim(buffer);
      if c.queue == [] then
        Step(Channel([], []), Some(response), None)
      else
        Step(Channel([], c.queue[1..]), Some(response), Some(Resolution(c.queue[0], response)))
  }

  /** The effect of a run of chunks. */
  datatype Trace = Trace(next: Channel, frames: seq<string>, resolutions: seq<Resolution>)

  /** The chunks joined in order: what reaches the buffer when no frame is cut. */
  function Concat(chunks: seq<string>): string
  {
    if chunks == [] then [] else chunks[0] + Concat(chunks[1..])
  }

  /** Receiving `chunks` one after the other. Whatever the chunks, the
      commands resolved are the oldest pending ones, in queue order, and the
      ones not yet resolved stay queued in order behind them; every frame is
      tight (trimmed); the k-th resolution carries the k-th frame, and a
      frame is left unresolved only when no command is pending. */
  function FeedAll(c: Channel, chunks: seq<string>): (t: Trace)
    ensures Entries(t.resolutions) + t.next.queue == c.queue
    ensures |t.resolutions| <= |t.frames| <= |chunks|
    ensures forall k :: 0 <= k < |t.frames| ==> Tight(t.frames[k])
    ensures forall k :: 0 <= k < |t.resolutions| ==> t.resolutions[k].response == t.frames[k]
    ensures |t.resolutions| < |t.frames| ==> t.next.queue == []
    decreases |chunks|
  {
    if chunks == [] then
      Trace(c, [], [])
    else
      var s := Feed(c, chunks[0]);
      var rest := FeedAll(s.next, chunks[1..]);
      StepThenRun(c.queue, s, rest);
      Trace(rest.next, AsSeq(s.frame) + rest.frames, AsSeq(s.resolved) + rest.resolutions)
  }

  /** A run of chunks that cuts no frame leaves every chunk, in order, in
      the buffer and the queue untouched; so a run that ends with a
      terminated buffer always cuts a frame. */
  lemma {:induction false} QuietRun(c: Channel, chunks: seq<string>)
    ensures FeedAll(c, chunks).frames == [] ==>
      FeedAll(c, chunks).next == Channel(c.buffer + Concat(chunks), c.queue)
    decreases |chunks|
  {
    if chunks == [] {
      assert c.buffer + Concat(chunks) == c.buffer;
    } else {
      var s := Feed(c, chunks[0]);
      if s.frame.None? {
        var rest := FeedAll(s.next, chunks[1..]);
        assert FeedAll(c, chunks).frames == rest.frames && FeedAll(c, chunks).next == rest.next by {
          FeedAllCons(c, chunks);
        }
        QuietRun(s.next, chunks[1..]);
        ConcatCons(c.buffer, chunks);
      } else {
        assert FeedAll(c, chunks).frames != [] by {
          FeedAllCons(c, chunks);
        }
      }
    }
  }

  lemma ConcatCons(buffer: string, chunks: seq<string>)
    requires chunks != []
    ensures buffer + chunks[0] + Concat(chunks[1..]) == buffer + Concat(chunks)
  {
    assert buffer + chunks[0] + Concat(chunks[1..]) == buffer + (chunks[0] + Concat(chunks[1..]));
  }

  /** A run of chunks is its first step followed by the run of the rest. */
  lemma FeedAllCons(c: Channel, chunks: seq<string>)
    requires chunks != []
    ensures var s := Feed(c, chunks[0]);
      var rest := FeedAll(s.next, chunks[1..]);
      FeedAll(c, chunks) == Trace(rest.next, AsSeq(s.frame) + rest.frames, AsSeq(s.resolved) + rest.resolutions)
  {
  }

  /** The replies paired, in order, with the queued entries they are meant
      to resolve. */
  function Matched(queue: seq<nat>, replies: seq<string>): seq<Resolution>
    requires |replies| <= |queue|
    decreases |replies|
  {
    if replies == [] then []
    else [Resolution(queue[0], Trim(replies[0]))] + Matched(queue[1..], replies[1..])
  }

  lemma {:induction false} MatchedAt(queue: seq<nat>, replies: seq<string>, k: nat)
    requires |replies| <= |queue| && k < |replies|
    ensures |Matched(queue, replies)| == |replies|
    ensures Matched(queue, replies)[k] == Resolution(queue[k], Trim(replies[k]))
    decreases |replies|
  {
    if k > 0 {
      MatchedAt(queue[1..], replies[1..], k - 1);
    } else if |replies| > 1 {
      MatchedAt(queue[1..], replies[1..], 0);
    }
  }

  predicate AllTerminated(replies: seq<string>)
    decreases |replies|
  {
    replies == [] || (IsTerminated(replies[0]) && AllTerminated(replies[1..]))
  }

  lemma {:induction false} RepliesFeedAll(queue: seq<nat>, replies: seq<string>)
    requires |replies| <= |queue| && AllTerminated(replies)
    ensures FeedAll(Channel([], queue), replies).next == Channel([], queue[|replies|..])
    ensures FeedAll(Channel([], queue), replies).resolutions == Matched(queue, replies)
    ensures |FeedAll(Channel([], queue), replies).frames| == |replies|
    decreases |replies|
  {
    if replies != [] {
      OneReply(queue, replies[0]);
      RepliesFeedAll(queue[1..], replies[1..]);
      assert queue[1..][|replies| - 1..] == queue[|replies|..];
    }
  }

  lemma {:induction false} AllTerminatedAt(replies: seq<string>)
    requires forall k :: 0 <= k < |replies| ==> IsTerminated(replies[k])
    ensures AllTerminated(replies)
    decreases |replies|
  {
    if replies != [] {
      AllTerminatedAt(replies[1..]);
    }
  }

  /** FIFO matching: with an empty buffer and the replies arriving one
      terminated chunk each, the k-th reply resolves the k-th pending
      command with that reply trimmed, and exactly the first |replies|
      commands leave the queue. */
  lemma RepliesResolveInOrder(queue: seq<nat>, replies: seq<string>)
    requires |replies| <= |queue|
    requires forall k :: 0 <= k < |replies| ==> IsTerminated(replies[k])
    ensures FeedAll(Channel([], queue), replies).next == Channel([], queue[|replies|..])
    ensures |FeedAll(Channel([], queue), replies).resolutions| == |replies|
    ensures forall k :: 0 <= k < |replies| ==>
      FeedAll(Channel([], queue), replies).resolutions[k] == Resolution(queue[k], Trim(replies[k]))
  {
    AllTerminatedAt(replies);
    RepliesFeedAll(queue, replies);
    var m := Matched(queue, replies);
    if replies == [] {
      assert m == [];
    } else {
      MatchedAt(queue, replies, 0);
    }
    forall k | 0 <= k < |replies|
      ensures m[k] == Resolution(queue[k], Trim(replies[k]))
    {
      MatchedAt(queue, replies, k);
    }
  }

  /** One terminated reply on an empty buffer resolves the queue head. */
  lemma OneReply(queue: seq<nat>, reply: string)
    requires queue != [] && IsTerminated(reply)
    ensures Feed(Channel([], queue), reply)
      == Step(Channel([], queue[1..]), Some(Trim(reply)), Some(Resolution(queue[0], Trim(reply))))
  {
    assert [] + reply == reply;
  }

  /** A device reply line `x` (tight) followed by CRLF, received on an empty
      buffer, is cut as exactly `x`; followed by the prompt, as `x` + ">". */
  lemma ReplyLineFramed(x: string, queue: seq<nat>)
    requires Tight(x)
    ensures Feed(Channel([], queue), x + CRLF).frame == Some(x)
    ensures Feed(Channel([], queue), x + Prompt).frame == Some(x + ">")
  {
    assert EndsWith(x + CRLF, CRLF);
    FrameOnEmptyBuffer(queue, x + CRLF);
    LineTrimmed(x);
    assert EndsWith(x + Prompt, Prompt);
    FrameOnEmptyBuffer(queue, x + Prompt);
    PromptTrimmed(x);
  }

  /** A terminated chunk on an empty buffer is cut whole, trimmed. */
  lemma FrameOnEmptyBuffer(queue: seq<nat>, chunk: string)
    requires IsTerminated(chunk)
    ensures Feed(Channel([], queue), chunk).frame == Some(Trim(chunk))
  {
    assert [] + chunk == chunk;
  }

  lemma LineTrimmed(x: string)
    requires Tight(x)
    ensures Trim(x + CRLF) == x
  {
    assert [] + x + CRLF == x + CRLF;
    TrimWrapped([], x, CRLF);
  }

  lemma PromptTrimmed(x: string)
    requires Tight(x)
    ensures Trim(x + Prompt) == x + ">"
  {
    assert [] + (x + ">") + " " == x + Prompt;
    TrimWrapped([], x + ">", " ");
  }

  /** Two reply lines arriving in one chunk form a single frame: it keeps
      the line break between them and resolves only the queue head, while
      the next command stays queued. */
  lemma TwoLinesOneFrame(x: string, y: string, queue: seq<nat>)
    requires Tight(x) && Tight(y) && x != [] && y != [] && queue != []
    ensures Feed(Channel([], queue), x + CRLF + y + CRLF)
      == Step(Channel([], queue[1..]), Some(x + CRLF + y), Some(Resolution(queue[0], x + CRLF + y)))
  {
    var joined := x + CRLF + y;
    assert joined[0] == x[0] && joined[|joined| - 1] == y[|y| - 1];
    assert EndsWith(joined + CRLF, CRLF);
    OneReply(queue, joined + CRLF);
    LineTrimmed(joined);
  }
}

=== FILE: js_string.dfy ===
/** The JavaScript string built-ins the client relies on:
    `String.prototype.endsWith`, `includes`, `trim` and `toLowerCase`,
    over strings as sequences of characters. */
module JsString {

  predicate StartsWith(s: string, prefix: string)
  {
    |prefix| <= |s| && s[..|prefix|] == prefix
  }

  /** `s.endsWith(suffix)` */
  predicate EndsWith(s: string, suffix: string)
  {
    |suffix| <= |s| && s[|s| - |suffix|..] == suffix
  }

  /** `t` occurs in `s` starting at index `i`: the reference meaning of "contains". */
  ghost predicate OccursAt(s: string, t: string, i: int)
  {
    0 <= i && i + |t| <= |s| && s[i..i + |t|] == t
  }

  ghost predicate Occurs(s: string, t: string)
  {
    exists i :: OccursAt(s, t, i)
  }

  lemma OccursStep(s: string, t: string)
    requires s != []
    ensures Occurs(s, t) <==> StartsWith(s, t) || Occurs(s[1..], t)
  {
    if Occurs(s, t) {
      var i :| OccursAt(s, t, i);
      if i > 0 {
        assert s[1..][i - 1..i - 1 + |t|] == s[i..i + |t|];
        assert OccursAt(s[1..], t, i - 1);
      }
    }
    if Occurs(s[1..], t) {
      var i :| OccursAt(s[1..], t, i);
      assert s[1..][i..i + |t|] == s[i + 1..i + 1 + |t|];
      assert OccursAt(s, t, i + 1);
    }
    if StartsWith(s, t) {
      assert OccursAt(s, t, 0);
    }
  }

  /** `s.includes(t)`: a left-to-right search for `t` in `s`. */
  function Includes(s: string, t: string): (found: bool)
    ensures found <==> Occurs(s, t)
    decreases |s|
  {
    if StartsWith(s, t) then
      assert OccursAt(s, t, 0);
      true
    else if s == [] then
      false
    else
      OccursStep(s, t);
      Includes(s[1..], t)
  }

  /** The characters `trim` removes: the ECMAScript WhiteSpace and
      LineTerminator code points. */
  const WhiteSpace: set<char> := {
    '\t', '\n', '\U{B}', '\U{C}', '\r', ' ', '\U{A0}', '\U{1680}',
    '\U{2000}', '\U{2001}', '\U{2002}', '\U{2003}', '\U{2004}', '\U{2005}',
    '\U{2006}', '\U{2007}', '\U{2008}', '\U{2009}', '\U{200A}',
    '\U{2028}', '\U{2029}', '\U{202F}', '\U{205F}', '\U{3000}', '\U{FEFF}'
  }

  predicate IsWhiteSpace(c: char)
  {
    c in WhiteSpace
  }

  ghost predicate AllWhiteSpace(s: string)
  {
    forall k {:trigger IsWhiteSpace(s[k])} :: 0 <= k < |s| ==> IsWhiteSpace(s[k])
  }

  /** Neither the first nor the last character of `s` is white space. */
  predicate Tight(s: string)
  {
    s == [] || (!IsWhiteSpace(s[0]) && !IsWhiteSpace(s[|s| - 1]))
  }

  /** The length of the longest all-white-space prefix of `s`. */
  function LeadingWhiteSpace(s: string): (n: nat)
    ensures n <= |s|
    ensures forall k {:trigger IsWhiteSpace(s[k])} :: 0 <= k < n ==> IsWhiteSpace(s[k])
    ensures n < |s| ==> !IsWhiteSpace(s[n])
    decreases |s|
  {
    if s == [] || !IsWhiteSpace(s[0]) then 0
    else
      var n := 1 + LeadingWhiteSpace(s[1..]);
      assert forall k :: 1 <= k < n ==> s[k] == s[1..][k - 1];
      n
  }

  /** The length of the longest all-white-space suffix of `s`. */
  function TrailingWhiteSpace(s: string): (n: nat)
    ensures n <= |s|
    ensures forall k {:trigger IsWhiteSpace(s[k])} :: |s| - n <= k < |s| ==> IsWhiteSpace(s[k])
    ensures n < |s| ==> !IsWhiteSpace(s[|s| - 1 - n])
    decreases |s|
  {
    if s == [] || !IsWhiteSpace(s[|s| - 1]) then 0
    else
      var init := s[..|s| - 1];
      1 + TrailingWhiteSpace(init)
  }

  /** `s.trim()`: `s` without its white-space margins. */
  function Trim(s: string): (r: string)
    ensures Tight(r)
  {
    var lead := LeadingWhiteSpace(s);
    if lead == |s| then []
    else s[lead..|s| - TrailingWhiteSpace(s)]
  }

  /** What `trim` removes is white space only: its result is what remains of
      `s` once an all-white-space prefix and an all-white-space suffix are
      cut off. */
  lemma TrimMargins(s: string)
    ensures exists i :: Margins(s, Trim(s), i)
  {
    var lead := LeadingWhiteSpace(s);
    if lead == |s| {
      assert Margins(s, Trim(s), |s|);
    } else {
      var trail := TrailingWhiteSpace(s);
      assert lead < |s| - trail;
      assert Trim(s) == s[lead..|s| - trail];
      assert Margins(s, Trim(s), lead);
    }
  }

  /** `s` is `r` with `i` white-space characters before it and only white
      space after it. */
  ghost predicate Margins(s: string, r: string, i: int)
  {
    0 <= i && i + |r| <= |s| && s[i..i + |r|] == r
    && (forall k {:trigger IsWhiteSpace(s[k])} :: 0 <= k < i ==> IsWhiteSpace(s[k]))
    && (forall k {:trigger IsWhiteSpace(s[k])} :: i + |r| <= k < |s| ==> IsWhiteSpace(s[k]))
  }

  /** Trimming a tight string wrapped in white space gives back that string;
      a tight string is its own trim. */
  lemma {:induction false} TrimWrapped(pre: string, x: string, post: string)
    requires AllWhiteSpace(pre) && Tight(x) && AllWhiteSpace(post)
    ensures Trim(pre + x + post) == x
  {
    var s := pre + x + post;
    var lead := LeadingWhiteSpace(s);
    if x == [] {
      assert lead == |s|;
    } else {
      var trail := TrailingWhiteSpace(s);
      assert s[|pre|] == x[0];
      assert s[|s| - 1 - |post|] == x[|x| - 1];
      assert lead == |pre|;
      assert trail == |post|;
      assert s[lead..|s| - trail] == x;
    }
  }

  lemma TrimTight(x: string)
    requires Tight(x)
    ensures Trim(x) == x
  {
    assert [] + x + [] == x;
    TrimWrapped([], x, []);
  }

  /** `String.prototype.toLowerCase` restricted to ASCII letters. */
  function LowerChar(c: char): (l: char)
  {
    if 'A' <= c <= 'Z' then (c as int - 'A' as int + 'a' as int) as char else c
  }

  function Lower(s: string): (l: string)
    ensures |l| == |s|
    ensures forall k :: 0 <= k < |l| ==> !('A' <= l[k] <= 'Z')
    ensures forall k :: 0 <= k < |s| && !('A' <= s[k] <= 'Z') ==> l[k] == s[k]
    ensures forall k :: 0 <= k < |s| && 'A' <= s[k] <= 'Z' ==> l[k] as int == s[k] as int + 32
  {
    seq(|s|, k requires 0 <= k < |s| => LowerChar(s[k]))
  }

  /** Lower-casing twice is lower-casing once. */
  lemma LowerTwice(s: string)
    ensures Lower(Lower(s)) == Lower(s)
  {
  }
}

=== FILE: login.dfy ===
/** The login handshake's reading of each received chunk (the `onData`
    listener of `authenticate`). The chunk is searched for markers; the
    framer's frame boundaries play no part. */
module Login {
  import opened JsString
  import Framer

  const PasswordMarker: string := "Password:"
  const SuccessMarker: string := "Login successful"
  const PromptMarker: string := Framer.Prompt
  const FailureMarker: string := "Login incorrect"

  /** What the handshake does with one chunk. */
  datatype AuthAction =
    | SendPassword   // write the password line, keep listening
    | Succeed        // stop listening, resolve the handshake
    | Fail           // stop listening, reject the handshake
    | KeepWaiting    // ignore the chunk (it is only logged)

  /** The markers are tested in priority order: the password request first,
      then success (the success banner or the prompt), then failure. */
  function Classify(message: string): (a: AuthAction)
    ensures a == SendPassword <==> Occurs(message, PasswordMarker)
    ensures a == Succeed <==>
      !Occurs(message, PasswordMarker)
      && (Occurs(message, SuccessMarker) || Occurs(message, PromptMarker))
    ensures a == Fail <==>
      !Occurs(message, PasswordMarker) && !Occurs(message, SuccessMarker)
      && !Occurs(message, PromptMarker) && Occurs(message, FailureMarker)
    ensures a == KeepWaiting <==>
      !Occurs(message, PasswordMarker) && !Occurs(message, SuccessMarker)
      && !Occurs(message, PromptMarker) && !Occurs(message, FailureMarker)
  {
    if Includes(message, PasswordMarker) then SendPassword
    else if Includes(message, SuccessMarker) || Includes(message, PromptMarker) then Succeed
    else if Includes(message, FailureMarker) then Fail
    else KeepWaiting
  }

  /** A failure banner followed by the prompt in the same chunk is read as
      a successful login: the prompt outranks "Login incorrect". */
  lemma PromptOutranksFailure()
    ensures Classify("Login incorrect\r\n> ") == Succeed
  {
    var m := "Login incorrect\r\n> ";
    assert OccursAt(m, PromptMarker, 17);
    FirstCharAbsent(m, PasswordMarker);
  }

  /** Markers are searched for chunk by chunk, so a password request split
      across two chunks is never seen and the handshake keeps waiting. */
  lemma SplitMarkerMissed()
    ensures Classify("Pass") == KeepWaiting
    ensures Classify("word:") == KeepWaiting
    ensures Classify("Password:") == SendPassword
  {
    assert OccursAt("Password:", PasswordMarker, 0);
    FirstCharAbsent("Pass", PromptMarker);
    FirstCharAbsent("word:", PromptMarker);
  }

  /** A marker whose first character never appears in `m` does not occur in it. */
  lemma FirstCharAbsent(m: string, marker: string)
    requires marker != []
    requires forall k :: 0 <= k < |m| ==> m[k] != marker[0]
    ensures !Occurs(m, marker)
  {
    forall i | 0 <= i && i + |marker| <= |m| ensures !OccursAt(m, marker, i) {
      assert m[i..i + |marker|][0] == m[i];
    }
  }
}

=== FILE: scenarios.dfy ===
/** Runs of the client built from its event methods: what callers and the
    device observe when calls and socket events happen in a given order. */
module Scenarios {
  import opened Basics
  import opened JsString
  import opened Framer
  import opened Login
  import opened Commands
  import opened Adcp

  /** FIFO correlation: commands sent one after the other on a connected
      client, then one terminated reply per command, each in its own chunk:
      the k-th reply, trimmed, resolves the k-th command. */
  method CommandsResolveInOrder(commands: seq<string>, replies: seq<string>)
    returns (entries: seq<nat>, resolved: seq<Option<Resolution>>)
    requires |replies| == |commands|
    requires forall k :: 0 <= k < |replies| ==> IsTerminated(replies[k])
    ensures |entries| == |commands| && |resolved| == |replies|
    ensures forall j, k :: 0 <= j < k < |entries| ==> entries[j] != entries[k]
    ensures forall k :: 0 <= k < |replies| ==>
      resolved[k] == Some(Resolution(entries[k], Trim(replies[k])))
  {
    var c := new Client("", "", false);
    var start := c.Connect();
    var progress := c.OnConnect();
    entries := SendAll(c, commands);
    assert Ascending(entries, c.nextEntry);
    resolved := ReceiveAll(c, entries, replies);
  }

  /** Sends `commands` in order on a connected client with an empty queue. */
  method SendAll(c: Client, commands: seq<string>) returns (entries: seq<nat>)
    requires c.Valid() && c.client == Socket(true, false) && !c.authListening
    requires c.responseBuffer == [] && c.commandQueue == []
    modifies c
    ensures c.Valid() && c.client == Socket(true, false) && !c.authListening
    ensures c.responseBuffer == [] && c.commandQueue == entries && |entries| == |commands|
  {
    entries := [];
    var i := 0;
    while i < |commands|
      invariant 0 <= i <= |commands|
      invariant c.Valid() && c.client == Socket(true, false) && !c.authListening
      invariant c.responseBuffer == [] && c.commandQueue == entries && |entries| == i
    {
      var r := c.SendCommand(commands[i]);
      entries := entries + [r.value];
      i := i + 1;
    }
  }

  /** Delivers one terminated reply per chunk to a connected client whose
      queue is `entries`, collecting what each chunk resolves. */
  method ReceiveAll(c: Client, entries: seq<nat>, replies: seq<string>)
    returns (resolved: seq<Option<Resolution>>)
    requires |replies| <= |entries|
    requires forall k :: 0 <= k < |replies| ==> IsTerminated(replies[k])
    requires c.Valid() && c.client == Socket(true, false) && !c.authListening
    requires c.responseBuffer == [] && c.commandQueue == entries
    modifies c
    ensures |resolved| == |replies|
    ensures forall k :: 0 <= k < |replies| ==>
      resolved[k] == Some(Resolution(entries[k], Trim(replies[k])))
  {
    resolved := [];
    var i := 0;
    while i < |replies|
      invariant 0 <= i <= |replies|
      invariant c.Valid() && c.client == Socket(true, false) && !c.authListening
      invariant c.responseBuffer == [] && c.commandQueue == entries[i..]
      invariant |resolved| == i
      invariant forall k :: 0 <= k < i ==> resolved[k] == Some(Resolution(entries[k], Trim(replies[k])))
    {
      assert entries[i..][1..] == entries[i + 1..];
      var r := Deliver(c, replies[i]);
      resolved := resolved + [r];
      i := i + 1;
    }
  }

  /** One terminated reply received in one chunk by a connected client with
      an empty buffer and a command pending: it resolves the oldest pending
      command, trimmed, and the buffer is empty again. */
  method Deliver(c: Client, reply: string) returns (resolved: Option<Resolution>)
    requires IsTerminated(reply)
    requires c.Valid() && c.client == Socket(true, false) && !c.authListening
    requires c.responseBuffer == [] && c.commandQueue != []
    modifies c
    ensures c.Valid() && c.client == Socket(true, false) && !c.authListening
    ensures c.responseBuffer == [] && c.commandQueue == old(c.commandQueue)[1..]
    ensures resolved == Some(Resolution(old(c.commandQueue)[0], Trim(reply)))
    ensures c.nextEntry == old(c.nextEntry) && c.written == old(c.written)
  {
    OneReply(c.commandQueue, reply);
    var p;
    resolved, p := c.OnData(reply);
  }

  /** A second `connect()` made before the socket has connected finds
      `client` already set and returns at once, so its command is written
      before the login lines and is queued without any login. */
  method ConnectDuringAttempt(username: string, password: string, command: string)
    returns (second: ConnectStart, sent: Result<nat, SendError>, authenticated: bool, ghost wire: seq<string>)
    ensures second == AlreadyConnected && sent.Ok? && !authenticated
    ensures wire == [command + CRLF, username + CRLF]
  {
    var c := new Client(username, password, true);
    var first := c.Connect();
    second := c.Connect();
    sent := c.SendCommand(command);
    authenticated := c.isAuthenticated;
    var progress := c.OnConnect();
    wire := c.written;
  }

  /** A second `connect()` made during the login, after the username line
      has gone out, also returns at once: its command is written after the
      username line, and the next terminated login chunk, the success banner,
      is cut as a frame and resolves that command. */
  method ConnectDuringLogin(username: string, password: string, command: string, banner: string)
    returns (second: ConnectStart, sent: Result<nat, SendError>, resolved: Option<Resolution>,
             authenticated: bool, ghost wire: seq<string>)
    requires IsTerminated(banner) && Classify(banner) == Succeed
    ensures second == AlreadyConnected && sent.Ok?
    ensures wire == [username + CRLF, command + CRLF]
    ensures resolved == Some(Resolution(sent.value, Trim(banner)))
    ensures authenticated
  {
    var c := new Client(username, password, true);
    var first := c.Connect();
    var progress := c.OnConnect();
    second := c.Connect();
    sent := c.SendCommand(command);
    wire := c.written;
    assert c.authListening && c.client == Socket(true, false);
    assert c.ChannelState() == Channel([], [sent.value]);
    OneReply([sent.value], banner);
    resolved, progress := c.OnData(banner);
    authenticated := c.isAuthenticated;
  }

  /** A socket error during an attempt, before the connect callback or
      during the login, disconnects but leaves the attempt flag set, and
      commands are refused. The socket's `close` follows its `error`; only
      the connect callback or the settling login could clear the flag, and
      neither is left to happen, so every `connect()` after the close waits.
      Without login, an error after the connect callback leaves a fresh
      attempt possible, and that attempt's live socket then answers the
      next `connect()` at once. */
  method ErrorDuringAttempt(username: string, password: string, useAuth: bool, beforeConnect: bool)
    returns (first: ConnectStart, second: ConnectStart, sent: Result<nat, SendError>, third: ConnectStart)
    ensures first == Started
    ensures second == if beforeConnect || useAuth then WaitForAttempt else Started
    ensures sent == Err(NotConnected)
    ensures third == if beforeConnect || useAuth then WaitForAttempt else AlreadyConnected
  {
    var c := new Client(username, password, useAuth);
    first := c.Connect();
    if !beforeConnect {
      var progress := c.OnConnect();
    }
    c.OnSocketError();
    c.OnSocketClose();
    sent := c.SendCommand("power_status ?");
    second := c.Connect();
    third := c.Connect();
  }

  /** The login exchange: username at connect, password once a chunk asks
      for it, success once a chunk carries the banner or the prompt. The
      login chunks also pass through the framer; no command is pending, so
      none is resolved. */
  method LoginAccepted(username: string, password: string, request: string, banner: string)
    returns (progress: Progress, authenticated: bool, connecting: bool, ghost wire: seq<string>, ghost resolved: seq<Resolution>)
    requires Classify(request) == SendPassword
    requires Classify(banner) == Succeed
    ensures progress == Resolved && authenticated && !connecting
    ensures wire == [username + CRLF, password + CRLF]
    ensures resolved == []
  {
    var c := new Client(username, password, true);
    var start := c.Connect();
    progress := c.OnConnect();
    var r;
    r, progress := c.OnData(request);
    r, progress := c.OnData(banner);
    authenticated, connecting := c.isAuthenticated, c.isConnecting;
    wire, resolved := c.written, c.resolutions;
  }

  /** A chunk reporting a failed login rejects the attempt, disconnects,
      and leaves the client neither authenticated nor connecting, so the
      next `connect()` starts a fresh attempt. */
  method LoginRejected(username: string, password: string, banner: string)
    returns (progress: Progress, authenticated: bool, next: ConnectStart)
    requires Classify(banner) == Fail
    ensures progress == Rejected && !authenticated && next == Started
  {
    var c := new Client(username, password, true);
    var start := c.Connect();
    progress := c.OnConnect();
    var r;
    r, progress := c.OnData(banner);
    authenticated := c.isAuthenticated;
    next := c.Connect();
  }

  /** `setPowerState(true)` then `getPowerState()` against a device that
      acknowledges the first command with any terminated reply and answers
      the status query with "power_status on": the device receives the two
      command lines in order, the acknowledgement resolves the power
      command, and the status reply resolves the status query and reads as
      powered on. */
  method PowerRoundTrip(acknowledgement: string)
    returns (powerEntry: nat, queryEntry: nat, ack: Option<Resolution>, status: Option<Resolution>,
             on: bool, ghost wire: seq<string>)
    requires IsTerminated(acknowledgement)
    ensures wire == ["power on\r\n", "power_status ?\r\n"]
    ensures ack == Some(Resolution(powerEntry, Trim(acknowledgement)))
    ensures status == Some(Resolution(queryEntry, "power_status on")) && queryEntry != powerEntry
    ensures on
  {
    var c := new Client("", "", false);
    var start := c.Connect();
    var progress := c.OnConnect();
    PowerCommandLines();
    powerEntry, ack := Exchange(c, Format(Power(true)), acknowledgement);
    var reply := StatusOnReply();
    queryEntry, status := Exchange(c, Format(PowerStatus), reply + CRLF);
    on := PowerStateOf(reply);
    wire := c.written;
  }

  /** The status reply of a powered-on projector, which its line terminator
      frames as exactly itself and which reads as on. */
  function StatusOnReply(): (reply: string)
    ensures reply == "power_status on"
    ensures Trim(reply + CRLF) == reply && IsTerminated(reply + CRLF)
    ensures PowerStateOf(reply)
  {
    PowerStatusReadings();
    LineTrimmed("power_status on");
    assert EndsWith("power_status on" + CRLF, CRLF);
    "power_status on"
  }

  /** One command sent on a connected, idle client and its terminated reply
      received in one chunk: the reply, trimmed, resolves that command and
      the client is idle again. */
  method Exchange(c: Client, command: string, reply: string) returns (entry: nat, resolved: Option<Resolution>)
    requires IsTerminated(reply)
    requires c.Valid() && c.client == Socket(true, false) && !c.authListening
    requires c.responseBuffer == [] && c.commandQueue == []
    modifies c
    ensures c.Valid() && c.client == Socket(true, false) && !c.authListening
    ensures c.responseBuffer == [] && c.commandQueue == []
    ensures entry == old(c.nextEntry) && c.nextEntry == entry + 1
    ensures resolved == Some(Resolution(entry, Trim(reply)))
    ensures c.written == old(c.written) + [command + CRLF]
  {
    var sent := c.SendCommand(command);
    entry := sent.value;
    OneReply(c.commandQueue, reply);
    var p;
    resolved, p := c.OnData(reply);
  }

  /** The lines `setPowerState(true)` and `getPowerState()` write. */
  lemma PowerCommandLines()
    ensures Format(Power(true)) + CRLF == "power on\r\n"
    ensures Format(PowerStatus) + CRLF == "power_status ?\r\n"
  {
    assert Format(Power(true)) == "power" + " " + "on";
    assert Format(PowerStatus) == "power_status" + " " + "?";
  }

  /** Two replies that arrive in one chunk are cut as one frame: the first
      command is resolved with both lines, joined by their line break, and
      the second command goes on waiting for a reply of its own. */
  method TwoRepliesOneChunk(x: string, y: string)
    returns (first: nat, second: nat, resolved: Option<Resolution>, pending: seq<nat>)
    requires Tight(x) && Tight(y) && x != [] && y != []
    ensures resolved == Some(Resolution(first, x + CRLF + y))
    ensures pending == [second] && first != second
  {
    var c := new Client("", "", false);
    var start := c.Connect();
    var progress := c.OnConnect();
    var sent := c.SendCommand(Format(PowerStatus));
    first := sent.value;
    sent := c.SendCommand(Format(Input("hdmi1")));
    second := sent.value;
    TwoLinesOneFrame(x, y, c.commandQueue);
    var p;
    resolved, p := c.OnData(x + CRLF + y + CRLF);
    pending := c.commandQueue;
  }

  /** `disconnect()` neither settles the pending commands nor clears the
      receive buffer. After a reconnect, the first reply is prefixed with
      the unterminated text left from the old connection and resolves the
      command sent on the old connection, while the command just sent stays
      pending. */
  method ReconnectMatchesStaleCommand(stale: string, partial: string, current: string, reply: string)
    returns (staleEntry: nat, freshEntry: nat, pendingAfterDisconnect: seq<nat>, resolved: Option<Resolution>, pending: seq<nat>)
    requires !IsTerminated(partial) && IsTerminated(partial + reply)
    ensures pendingAfterDisconnect == [staleEntry]
    ensures resolved == Some(Resolution(staleEntry, Trim(partial + reply)))
    ensures pending == [freshEntry] && freshEntry != staleEntry
  {
    var c := new Client("", "", false);
    var start := c.Connect();
    var progress := c.OnConnect();
    var sent := c.SendCommand(stale);
    staleEntry := sent.value;
    assert [] + partial == partial;
    var r, p := c.OnData(partial);
    c.Disconnect();
    c.Disconnect();
    pendingAfterDisconnect := c.commandQueue;
    start := c.Connect();
    progress := c.OnConnect();
    sent := c.SendCommand(current);
    freshEntry := sent.value;
    resolved, p := c.OnData(reply);
    pending := c.commandQueue;
  }
}
